=== FILE: README.md ===
# Noise player controller — a Dafny model

This project models the control logic of the browser noise player's
`NoiseGenerator` class (`static/js/noise.js`). The audio side is reduced to the
targets the controller schedules on its audio parameters:

- one gain per noise colour (white, pink, brown);
- the master gain;
- the high-pass ("low cut") and low-pass ("high cut") filter frequencies;
- the gain and frequency of the tremolo oscillator.

Each `setTargetAtTime(v, now, 0.1)` becomes `Ramp(v)`, a target `v` with time
constant 0.1. Each plain `param.value = v` becomes `Assign(v)`, which takes
effect at once. Levels are exact `real`s.

The modules are:

- `Audio` (`audio.dfy`): colours, parameters, settings, and the graph's
  initial parameters.
- `Generator` (`generator.dfy`): the controller record and its operations.
  These are lazy audio initialisation, the seven parameter setters, presets,
  play/stop/toggle, and the countdown timer.
- `TimerDisplay` (`display.dfy`): the `MM:SS` badge formatter.
- `Events` (`events.dfy`): the page's listeners as a dispatch function over
  abstract events. It also replays call and event sequences and proves the
  invariants those runs keep.

The controller record also holds the positions of the three level sliders,
because `play()` reads them and `applyPreset` moves them.

Two invariants are proved:

- On every state reachable by direct calls, a playing generator has an audio
  graph. Its filter frequencies and oscillator rate are the ones the settings
  record.
- On every state reachable through the page's events from a new controller
  (with sliders in range), a playing generator sounds exactly at its slider
  levels and a stopped one is silent. On those states, once the audio graph
  exists, pressing play twice gives back the identical state. Before the first
  play it does not, because the first press builds the graph.

One behaviour of the code is worth knowing. A tremolo depth set before the
first play is recorded in the settings, but the graph is built with no
tremolo: the oscillator gain is seeded with 0 (line 76). The oscillator rate,
by contrast, is seeded from the settings (line 73).
`Generator.DepthBeforeFirstPlayIsNotApplied` states this as it is written.
Its twin is the master volume: set before the first play, it is dropped,
because the setter does nothing without the graph (line 206) and the graph is
built with master gain 0.5 (line 83). `Generator.VolumeBeforeFirstPlayIsDropped`
states this.

The code has three colours and six built-in presets, and nothing clamps the
low cut below the high cut. Gains stay in [0, 1] only because the sliders feed
them values in range; `Events.Coherent` states this.

## Model

| member | source | states |
|---|---|---|
| Generator.Fresh | static/js/noise.js:7-39 | A new controller has no audio graph, is not playing and has no timer running. Its settings are the defaults (20 Hz, 20 kHz, width 100, depth 0, rate 0.1 Hz, fade 3 s). |
| Generator.InitAudioContext | static/js/noise.js:54-102 | Afterwards the graph exists, and only the graph has changed. An existing graph is left alone. A new graph has its filter cutoffs and oscillator rate from the settings; its master gain is assigned 0.5 and its tremolo and colour gains are assigned 0, all at once rather than ramped. |
| Generator.InitIdempotent | static/js/noise.js:54-55 | Initialising twice gives the same state as initialising once. |
| Generator.SetNoiseLevel | static/js/noise.js:195-203 | Without a graph, or for a name that is not white/pink/brown, nothing changes. Otherwise only the named colour's gain changes, to a 0.1-second ramp toward the value. |
| Generator.SetMasterVolume | static/js/noise.js:205-213 | A no-op without a graph. Otherwise only the master gain changes, ramping to the value. |
| Generator.SetLowCut | static/js/noise.js:216-225 | The low-cut setting is recorded even without a graph. The high-pass frequency ramps to it only when the graph exists. Nothing else changes. |
| Generator.SetHighCut | static/js/noise.js:227-236 | The same as `SetLowCut`, for the high-cut setting and the low-pass frequency. |
| Generator.SetOscillationDepth | static/js/noise.js:238-248 | The depth is recorded even without a graph. With a graph, the tremolo gain ramps to half the depth, so a depth in [0, 1] gives a gain in [0, 0.5]. Nothing else changes. |
| Generator.SetOscillationRate | static/js/noise.js:250-259 | The rate is recorded even without a graph. The oscillator frequency ramps to it only when the graph exists. Nothing else changes. |
| Generator.SetFadeTime | static/js/noise.js:261-263 | Only the fade time in the settings changes. |
| Generator.PresetsAreMixes | static/js/noise.js:266-273 | Each of the six built-in presets has its levels in [0, 1], and they add up to exactly 1. |
| Generator.ApplyPreset | static/js/noise.js:265-301 | An unknown name changes nothing. A known name sets each slider to 100 times the table's level. When the graph exists, each colour gain ramps to the table's level and the other controls stay as they were. The play state, settings and timer never change. |
| Generator.Play | static/js/noise.js:303-323 | Afterwards the graph exists and the generator is playing. Each colour gain ramps to its slider position divided by 100. Every other control is as the (lazy) initialisation left it. Settings, sliders and timer are unchanged. |
| Generator.CutsBeforeFirstPlay | static/js/noise.js:54-68 | Cutoffs set before the first play become the filters' frequencies once play builds the graph. |
| Generator.DepthBeforeFirstPlayIsNotApplied | static/js/noise.js:70-76 | A depth set before the first play stays in the settings, but the tremolo gain starts at 0. A rate set before the first play becomes the oscillator frequency. |
| Generator.VolumeBeforeFirstPlayIsDropped | static/js/noise.js:205-213 | A master volume set before the first play changes nothing, and the first play leaves the master gain at the 0.5 the graph is built with. |
| Generator.Stop | static/js/noise.js:325-337 | Without a graph nothing changes. Otherwise the generator stops and every colour gain ramps to 0. Master, filters, tremolo, settings, sliders and timer are unchanged. |
| Generator.Toggle | static/js/noise.js:339-345 | A stopped generator ends up playing, with a graph. A playing one with a graph ends up stopped. A playing one without a graph is left as it is. |
| Generator.ToggleTwicePlaying | static/js/noise.js:339-345 | From any state, toggling twice restores whether the generator plays. |
| Generator.ToggleFlips | static/js/noise.js:303-345 | When the invariant holds (playing implies a graph), one toggle always flips the play state. |
| Generator.StopTimer | static/js/noise.js:391-399 | No interval remains, the count is 0 and the badge text is `--:--`. Nothing outside the timer changes. |
| Generator.StartTimer | static/js/noise.js:372-389 | Any old countdown is replaced by a running one of `minutes * 60` seconds, shown on the badge. Nothing outside the timer changes. |
| Generator.Tick | static/js/noise.js:378-386 | Without an interval, nothing happens. With more than one second left, only the count drops by one and is shown. On the last second the result is stop applied after stopTimer: the timer is cleared and a generator with a graph stops. |
| Generator.CountingDown | static/js/noise.js:378-386 | While more seconds are left than ticks fire, each tick only takes one second off and shows the rest. Audio, play state, settings and sliders are untouched. |
| Generator.TimerRunsOut | static/js/noise.js:372-386 | A timer of m > 0 minutes leaves everything but the count unchanged for 60·m − 1 ticks, with one second left. Tick 60·m gives exactly stop after stopTimer. |
| TimerDisplay.NatToString | static/js/noise.js:405 | `toString` of a non-negative integer below 2^53 is a non-empty run of decimal digits, with no leading zero except for 0. |
| TimerDisplay.ParseNatToString | static/js/noise.js:405 | Reading the numeral back as a decimal gives the number. |
| TimerDisplay.NatToStringLength | static/js/noise.js:405 | The numeral has one digit exactly below 10, and at most two exactly below 100. |
| TimerDisplay.IntToString | static/js/noise.js:405 | A minus sign appears exactly for negative numbers. The rest reads back as the magnitude and, like every `toString` numeral, has no leading zero except for 0 itself. |
| TimerDisplay.JsRemainder | static/js/noise.js:403 | JavaScript `%`: the dividend equals the divisor times the quotient rounded toward zero, plus the remainder. The remainder lies in [0, b) for a non-negative dividend and in (−b, 0] for a negative one. |
| TimerDisplay.Format | static/js/noise.js:401-406 | The badge text has at least five characters. For a non-negative count the third character from the end is the colon. |
| TimerDisplay.PadStart2 | static/js/noise.js:405 | `padStart(2, '0')` leaves strings of two or more characters alone. Shorter ones become two characters, zeros in front of the original. |
| TimerDisplay.FormatReadsBack | static/js/noise.js:401-406 | For any count 0 ≤ r < 2^53 the badge reads as digits, a colon and exactly two digits. Minutes × 60 + seconds = r, with seconds < 60. The text is five characters exactly when r < 6000. |
| TimerDisplay.FormatShape | static/js/noise.js:401-406 | For 0 ≤ r < 6000 the badge is `MM:SS`: the two leading digits read r / 60, the two trailing digits read r % 60 (below 60), and minutes × 60 + seconds = r. |
| Audio.ColorNamed | static/js/noise.js:196 | Only "white", "pink" and "brown" name a colour, and the colour found has that name. |
| Audio.Seed | static/js/noise.js:59-185 | Every parameter of a new graph is assigned at once, with no ramp. The filter cutoffs and oscillator rate come from the settings, the master gain is 0.5, and the tremolo gain and every colour gain are 0. |
| Generator.Badge.Text | static/js/noise.js:372-406 | The badge shows nothing of the model's own exactly before the timer is first used. A count below 100 minutes shows as five characters `MM:SS` whose halves read back as the seconds (minutes × 60 + seconds, seconds < 60). A cleared timer shows five characters starting with a non-digit, so it cannot be read as a count. |
| Events.ApplyKeepsInv | static/js/noise.js:303-399 | Every operation keeps the invariant: playing implies a graph; a stopped timer has 0 left; the graph's filters and oscillator rate match the settings. |
| Events.RunKeepsInv | static/js/noise.js:303-399 | Any sequence of calls from an invariant state keeps the invariant. |
| Events.ToggleFromReachable | static/js/noise.js:339-345 | From any state that calls can reach from a new controller, one toggle flips the play state and two restore it. |
| Events.Dispatch | static/js/noise.js:512-644 | The play button toggles, and so does Space pressed on anything but an INPUT. A preset button leaves the generator playing with its settings and timer unchanged; while already playing it only applies the preset, and an unknown name leaves the sliders alone. A level slider records its position and changes nothing else; while playing it ramps only its own colour gain. A timer button leaves settings and sliders alone: with 0 minutes it only clears the timer to `--:--`; with any other number it gives the timer `startTimer` leaves and plays, without touching the audio when already playing. The volume, filter, tremolo-depth, rate and fade sliders each call their setter with the value converted as the listener does (volume / 100, depth / 100, rate / 100). A timer firing is one `Tick`. A key press on an INPUT, or any key other than Space, changes nothing. |
| Events.PresetButtonPlaysPreset | static/js/noise.js:519-526 | With a built-in name, the preset button leaves the generator playing at exactly the preset's levels, whether or not it was playing. |
| Events.CoherentGainsInRange | static/js/noise.js:533-538 | In a coherent state every colour gain target lies in [0, 1]. |
| Events.DispatchKeepsCoherent | static/js/noise.js:512-644 | Every in-range event keeps the page coherent. Once the graph exists, playing means the gains match the sliders and stopped means silent. Master stays in [0, 1] and tremolo in [0, 0.5]. |
| Events.ReplayKeepsCoherent | static/js/noise.js:512-644 | Any sequence of in-range events from a coherent state ends in a coherent state. |
| Events.FreshCoherent | static/js/noise.js:7-39 | A new controller whose sliders are in range is coherent: it has no graph, is stopped, and its timer is idle. |
| Events.ReachableCoherent | static/js/noise.js:512-644 | Every state reached from a new controller through in-range events is coherent. |
| Events.ToggleTwiceRestores | static/js/noise.js:339-345 | In a coherent state with a graph, toggling twice gives back exactly the starting state, gains included. |

## Left out

- Noise buffer synthesis (`createWhiteNoiseSource`, `createPinkNoiseSource`, `createBrownNoiseSource`) is left out. It draws from `Math.random` and runs floating-point recurrences, and the code states no bound on its samples.
- Building the Web Audio graph is left out. So are `connect`, `start`, `resume`, the suspended-context check in `play`, the analyser, and a failure to create the audio context. Only the resulting parameter targets are modelled.
- The time at which a ramp starts (`audioContext.currentTime`) and the ramp's actual curve are left out. A parameter is its target and time constant.
- Canvas drawing and visualisation are left out (`setupCanvas`, `resizeCanvas`, `drawStaticWaveform`, `startVisualization`, `stopVisualization`, `requestAnimationFrame`), along with DOM-only updates. Those updates are `updatePlayButton`, `updateStatus`, percentage and Hz labels, the "active" classes on buttons and the badge, and `preventDefault`.
- The page's markup is not part of this model. So the initial slider positions are a parameter of `Generator.Fresh`, and the badge's initial text is represented as `Untouched`.
- `setInterval` timing is left out. One firing of the interval is the explicit `Tick` step.
- The stereo-width slider only stores a number that nothing reads, so its listener is left out. The fade time is stored and likewise never read.
- Floating-point rounding is left out: `p.white * 100` and `value / 100` are exact here. Every table level times 100 is an exact integer, so only `value / 100` rounds in the code. The model takes it as exact.
- Inherited object keys are left out. `presets[name]` and `noiseNodes[type]` are modelled as lookups of the table's own keys only, so a name such as `toString` is treated as unknown.
- `parseInt` returning `NaN` is left out. The advanced sliders and timer buttons are taken to deliver integers.
- TimerDisplay.NatToString: the count `timerRemaining` is a JavaScript Number, a double. Here it is an unbounded integer, so the model is exact only for counts below 2^53, where decrementing still changes the value. It also ignores that `toString` switches to exponent form (`1e+21`) from 10^21 on.
- TimerDisplay.FormatReadsBack: it holds as stated only for counts below 2^53, for the same reason as for `NatToString`.

=== FILE: audio.dfy ===
/** The audio side of the noise player as the controller sees it: the three
    noise colours, the user-facing settings, and the target of every audio
    parameter the controller schedules. Buffers, nodes and their wiring are
    not values here; only the parameter targets they expose are. */
module Audio {

  datatype Option<T> = None | Some(value: T)

  /** The three noise colours; each has its own looping source and gain. */
  datatype Color = White | Pink | Brown

  /** The key under which a colour is stored in `noiseNodes` and named by the sliders. */
  function Name(c: Color): string {
    match c
    case White => "white"
    case Pink => "pink"
    case Brown => "brown"
  }

  /** Looking a colour up by its name: `noiseNodes[type]`. Any other name finds no entry. */
  function ColorNamed(name: string): (c: Option<Color>)
    ensures c.Some? ==> Name(c.value) == name
    ensures c.None? ==> forall k: Color :: Name(k) != name
  {
    if name == "white" then Some(White)
    else if name == "pink" then Some(Pink)
    else if name == "brown" then Some(Brown)
    else None
  }

  /** The time constant of every `setTargetAtTime(v, now, 0.1)` the controller issues. */
  const Smoothing: real := 0.1

  /** A plain `param.value = v` assignment: the value is taken at once, with no ramp. */
  const Immediate: real := 0.0

  /** One audio parameter as last scheduled: the value it approaches and the
      time constant of the exponential approach (`Immediate` for a jump). */
  datatype Param = Param(target: real, timeConstant: real)

  /** `setTargetAtTime(v, now, 0.1)`. */
  function Ramp(v: real): Param {
    Param(v, Smoothing)
  }

  /** `param.value = v`. */
  function Assign(v: real): Param {
    Param(v, Immediate)
  }

  /** The advanced settings the controller keeps whether or not audio exists. */
  datatype Settings = Settings(
    lowCut: real,
    highCut: real,
    stereoWidth: real,
    oscillation: real,
    oscillationRate: real,
    fadeTime: real)

  /** Settings at construction: 20 Hz to 20 kHz, full stereo width, no
      oscillation at 0.1 Hz, a three-second fade. */
  const DefaultSettings: Settings := Settings(20.0, 20000.0, 100.0, 0.0, 0.1, 3.0)

  /** One real number per colour: slider positions in percent, or preset levels. */
  datatype Mix = Mix(white: real, pink: real, brown: real) {
    function Level(c: Color): real {
      match c
      case White => white
      case Pink => pink
      case Brown => brown
    }

    function With(c: Color, v: real): (m: Mix)
      ensures m.Level(c) == v
      ensures forall k :: k != c ==> m.Level(k) == Level(k)
    {
      match c
      case White => this.(white := v)
      case Pink => this.(pink := v)
      case Brown => this.(brown := v)
    }

    /** Every level lies in [lo, hi]. */
    predicate Within(lo: real, hi: real) {
      forall c: Color :: lo <= Level(c) <= hi
    }
  }

  /** The parameters of the audio graph once it exists: a gain per colour, the
      master gain, the cutoff of the high-pass (low-cut) and low-pass (high-cut)
      filters, and the gain and frequency of the tremolo oscillator. */
  datatype Graph = Graph(
    white: Param,
    pink: Param,
    brown: Param,
    master: Param,
    lowCut: Param,
    highCut: Param,
    lfoGain: Param,
    lfoFrequency: Param)
  {
    function Gain(c: Color): Param {
      match c
      case White => white
      case Pink => pink
      case Brown => brown
    }

    function WithGain(c: Color, p: Param): (g: Graph)
      ensures g.Gain(c) == p
      ensures forall k :: k != c ==> g.Gain(k) == Gain(k)
      ensures SameControls(g, this)
    {
      match c
      case White => this.(white := p)
      case Pink => this.(pink := p)
      case Brown => this.(brown := p)
    }
  }

  /** The two graphs agree on everything but the three colour gains. */
  predicate SameControls(g: Graph, h: Graph) {
    && g.master == h.master
    && g.lowCut == h.lowCut
    && g.highCut == h.highCut
    && g.lfoGain == h.lfoGain
    && g.lfoFrequency == h.lfoFrequency
  }

  /** Two graphs that agree on the colour gains and on everything else are equal. */
  lemma GraphEquality(g: Graph, h: Graph)
    requires SameControls(g, h)
    requires forall c: Color :: g.Gain(c) == h.Gain(c)
    ensures g == h
  {
    assert g.Gain(White) == h.Gain(White);
    assert g.Gain(Pink) == h.Gain(Pink);
    assert g.Gain(Brown) == h.Gain(Brown);
  }

  /** Every colour gain is being faded to zero. */
  predicate Silent(g: Graph) {
    forall c: Color :: g.Gain(c) == Ramp(0.0)
  }

  /** The parameters as the graph is built: filter cutoffs and oscillator rate
      come from the settings, the master gain starts at one half, and the
      colour gains and the tremolo depth start at zero. */
  function Seed(settings: Settings): (g: Graph)
    ensures g.lowCut == Assign(settings.lowCut)
    ensures g.highCut == Assign(settings.highCut)
    ensures g.lfoFrequency == Assign(settings.oscillationRate)
    ensures g.lfoGain == Assign(0.0)
    ensures g.master == Assign(0.5)
    ensures forall c: Color :: g.Gain(c) == Assign(0.0)
  {
    Graph(
      white := Assign(0.0),
      pink := Assign(0.0),
      brown := Assign(0.0),
      master := Assign(0.5),
      lowCut := Assign(settings.lowCut),
      highCut := Assign(settings.highCut),
      lfoGain := Assign(0.0),
      lfoFrequency := Assign(settings.oscillationRate))
  }
}

=== FILE: display.dfy ===
/** The countdown text of the noise player's timer badge: `MM:SS` built from the
    remaining seconds with `Math.floor`, JavaScript's `%`, `toString` and
    `padStart(2, '0')`, and the `--:--` shown when no timer runs. */
module TimerDisplay {

  /** The text written when the timer is cleared. */
  const Cleared: string := "--:--"

  predicate IsDigit(c: char) {
    '0' <= c <= '9'
  }

  predicate IsDigits(s: string) {
    forall i :: 0 <= i < |s| ==> IsDigit(s[i])
  }

  function DigitValue(c: char): (d: nat)
    requires IsDigit(c)
    ensures d < 10
  {
    c as int - '0' as int
  }

  function DigitChar(d: nat): (c: char)
    requires d < 10
    ensures IsDigit(c)
    ensures DigitValue(c) == d
  {
    ('0' as int + d) as char
  }

  /** The value of a decimal numeral, most significant digit first. This is the
      reading a user makes of the badge, and the reference the formatter is
      checked against. */
  function ParseDigits(s: string): nat
    requires IsDigits(s)
  {
    if s == [] then 0 else ParseDigits(s[..|s| - 1]) * 10 + DigitValue(s[|s| - 1])
  }

  /** `Number.prototype.toString()` of a non-negative integer: its decimal
      numeral without leading zeros. */
  function NatToString(n: nat): (s: string)
    ensures 1 <= |s|
    ensures IsDigits(s)
    ensures s[0] == '0' ==> n == 0
  {
    if n < 10 then [DigitChar(n)] else NatToString(n / 10) + [DigitChar(n % 10)]
  }

  lemma {:induction false} ParseNatToString(n: nat)
    ensures ParseDigits(NatToString(n)) == n
  {
    if n >= 10 {
      var s := NatToString(n);
      assert s[..|s| - 1] == NatToString(n / 10);
      ParseNatToString(n / 10);
    }
  }

  /** One digit below ten, two below a hundred, three or more from a hundred on. */
  lemma {:induction false} NatToStringLength(n: nat)
    ensures |NatToString(n)| == 1 <==> n < 10
    ensures |NatToString(n)| <= 2 <==> n < 100
  {
    if n >= 10 {
      NatToStringLength(n / 10);
    }
  }

  /** `Number.prototype.toString()` of any integer: a minus sign before the
      numeral of the magnitude when negative. */
  function IntToString(i: int): (s: string)
    ensures 1 <= |s|
    ensures s[0] == '-' <==> i < 0
    ensures i >= 0 ==> IsDigits(s) && ParseDigits(s) == i
    ensures i < 0 ==> IsDigits(s[1..]) && ParseDigits(s[1..]) == -i
    ensures i >= 0 && s[0] == '0' ==> i == 0
    ensures i < 0 ==> |s| >= 2 && s[1] != '0'
  {
    if i >= 0 then
      ParseNatToString(i);
      NatToString(i)
    else
      ParseNatToString(-i);
      var m := NatToString(-i);
      assert ("-" + m)[1..] == m;
      "-" + m
  }

  /** A leading zero does not change the value of a numeral. */
  lemma {:induction false} ParseLeadingZero(s: string)
    requires IsDigits(s)
    ensures IsDigits("0" + s)
    ensures ParseDigits("0" + s) == ParseDigits(s)
  {
    var z := "0" + s;
    if s != [] {
      assert z[..|z| - 1] == "0" + s[..|s| - 1];
      ParseLeadingZero(s[..|s| - 1]);
    }
  }

  /** `padStart(2, '0')`: strings shorter than two characters get zeros in front. */
  function PadStart2(s: string): (r: string)
    ensures |s| >= 2 ==> r == s
    ensures |s| < 2 ==> |r| == 2 && r[2 - |s|..] == s
    ensures forall i :: 0 <= i < 2 - |s| ==> r[i] == '0'
  {
    if |s| == 0 then "00" else if |s| == 1 then "0" + s else s
  }

  lemma PadDigitsValue(s: string)
    requires 1 <= |s| && IsDigits(s)
    ensures IsDigits(PadStart2(s))
    ensures ParseDigits(PadStart2(s)) == ParseDigits(s)
  {
    if |s| < 2 {
      ParseLeadingZero(s);
      assert PadStart2(s) == "0" + s;
    }
  }

  /** The integer quotient that JavaScript's `%` pairs with: the exact
      quotient rounded toward zero. */
  function TruncDiv(a: int, b: int): int
    requires b > 0
  {
    if a >= 0 then a / b else -((-a) / b)
  }

  /** JavaScript's `%` on integers: what is left of the dividend after taking
      away the divisor times the quotient rounded toward zero, so the remainder
      has the sign of the dividend, unlike Dafny's Euclidean `%`. */
  function JsRemainder(a: int, b: int): (r: int)
    requires b > 0
    ensures a == b * TruncDiv(a, b) + r
    ensures a >= 0 ==> 0 <= r < b
    ensures a < 0 ==> -b < r <= 0
  {
    if a >= 0 then a % b
    else
      assert -a == ((-a) / b) * b + (-a) % b;
      -((-a) % b)
  }

  /** The badge text for `remaining` seconds. The minutes are
      `Math.floor(remaining / 60)`, which for the positive divisor 60 is
      Dafny's `/`. */
  function Format(remaining: int): (t: string)
    ensures |t| >= 5
    ensures remaining >= 0 ==> t[|t| - 3] == ':'
  {
    var minutes := PadStart2(IntToString(remaining / 60));
    var seconds := PadStart2(IntToString(JsRemainder(remaining, 60)));
    assert remaining >= 0 ==> |seconds| == 2 by {
      if remaining >= 0 {
        NatToStringLength(remaining % 60);
      }
    }
    minutes + ":" + seconds
  }

  /** For every non-negative count the badge reads back: a run of digits for the
      minutes (at least two), a colon, exactly two digits for the seconds, and
      minutes * 60 + seconds is the count, with seconds below 60. The text is
      the five-character `MM:SS` exactly when the count is below 100 minutes. */
  lemma FormatReadsBack(remaining: int)
    requires remaining >= 0
    ensures var t := Format(remaining);
      && |t| >= 5
      && t[|t| - 3] == ':'
      && IsDigits(t[..|t| - 3]) && IsDigits(t[|t| - 2..])
      && ParseDigits(t[|t| - 2..]) < 60
      && ParseDigits(t[..|t| - 3]) * 60 + ParseDigits(t[|t| - 2..]) == remaining
      && (|t| == 5 <==> remaining < 6000)
  {
    var m := remaining / 60;
    var sec := JsRemainder(remaining, 60);
    assert m * 60 + sec == remaining;
    assert m < 100 <==> remaining < 6000;
    var ms := IntToString(m);
    var ss := IntToString(sec);
    NatToStringLength(m);
    NatToStringLength(sec);
    PadDigitsValue(ms);
    PadDigitsValue(ss);
    var pm := PadStart2(ms);
    var ps := PadStart2(ss);
    assert ParseDigits(pm) == m && ParseDigits(ps) == sec;
    assert |ps| == 2;
    assert |pm| == 2 <==> m < 100;
    var t := Format(remaining);
    assert t == pm + ":" + ps;
    assert t[..|t| - 3] == pm;
    assert t[|t| - 2..] == ps;
  }

  /** Below 100 minutes the badge is `MM:SS`: two digits, a colon, two digits. */
  lemma FormatShape(remaining: int)
    requires 0 <= remaining < 6000
    ensures var t := Format(remaining);
      && |t| == 5 && t[2] == ':'
      && IsDigits(t[..2]) && IsDigits(t[3..])
      && ParseDigits(t[..2]) == remaining / 60
      && ParseDigits(t[3..]) == remaining % 60
      && ParseDigits(t[3..]) < 60
      && ParseDigits(t[..2]) * 60 + ParseDigits(t[3..]) == remaining
  {
    FormatReadsBack(remaining);
  }
}

=== FILE: events.dfy ===
/** The two ways the controller is driven. `Call` is a direct call of one of
    its operations, in any order; `Event` is what the page's listeners do with
    a click, a slider move, a key press or a timer firing. Both are replayed
    over sequences, and each comes with the invariant its runs keep. */
module Events {
  import opened Audio
  import G = Generator

  /** A direct call of one controller operation; `Tick` is one firing of the
      countdown interval. */
  datatype Call =
    | InitAudioContext
    | SetNoiseLevel(name: string, value: real)
    | SetMasterVolume(value: real)
    | SetLowCut(frequency: real)
    | SetHighCut(frequency: real)
    | SetOscillationDepth(depth: real)
    | SetOscillationRate(rate: real)
    | SetFadeTime(seconds: real)
    | ApplyPreset(preset: string)
    | Play
    | Stop
    | Toggle
    | StartTimer(minutes: int)
    | StopTimer
    | Tick

  function Apply(s: G.NoiseGenerator, call: Call): G.NoiseGenerator {
    match call
    case InitAudioContext => G.InitAudioContext(s)
    case SetNoiseLevel(name, value) => G.SetNoiseLevel(s, name, value)
    case SetMasterVolume(value) => G.SetMasterVolume(s, value)
    case SetLowCut(frequency) => G.SetLowCut(s, frequency)
    case SetHighCut(frequency) => G.SetHighCut(s, frequency)
    case SetOscillationDepth(depth) => G.SetOscillationDepth(s, depth)
    case SetOscillationRate(rate) => G.SetOscillationRate(s, rate)
    case SetFadeTime(seconds) => G.SetFadeTime(s, seconds)
    case ApplyPreset(preset) => G.ApplyPreset(s, preset)
    case Play => G.Play(s)
    case Stop => G.Stop(s)
    case Toggle => G.Toggle(s)
    case StartTimer(minutes) => G.StartTimer(s, minutes)
    case StopTimer => G.StopTimer(s)
    case Tick => G.Tick(s)
  }

  /** The calls applied one after another, first call first. */
  function Run(s: G.NoiseGenerator, calls: seq<Call>): G.NoiseGenerator
    decreases |calls|
  {
    if calls == [] then s else Run(Apply(s, calls[0]), calls[1..])
  }

  /** Every operation keeps the controller invariant. */
  lemma ApplyKeepsInv(s: G.NoiseGenerator, call: Call)
    requires G.Inv(s)
    ensures G.Inv(Apply(s, call))
  {
  }

  /** A run of calls from a state satisfying the invariant ends in one; with
      `Fresh` as the start this covers every state calls can reach. */
  lemma {:induction false} RunKeepsInv(s: G.NoiseGenerator, calls: seq<Call>)
    requires G.Inv(s)
    ensures G.Inv(Run(s, calls))
    decreases |calls|
  {
    if calls != [] {
      ApplyKeepsInv(s, calls[0]);
      RunKeepsInv(Apply(s, calls[0]), calls[1..]);
    }
  }

  /** From any state calls can reach, `toggle(); toggle()` restores whether
      the generator plays, and a single `toggle()` changes it. */
  lemma ToggleFromReachable(sliders: Mix, calls: seq<Call>)
    ensures var s := Run(G.Fresh(sliders), calls);
      && G.Toggle(s).playing == !s.playing
      && G.Toggle(G.Toggle(s)).playing == s.playing
  {
    RunKeepsInv(G.Fresh(sliders), calls);
    G.ToggleFlips(Run(G.Fresh(sliders), calls));
  }

  /** A page event, as the listeners see it. Slider values are those the
      listener reads: the level and volume sliders as their raw position (the
      listener divides by 100), the advanced sliders as `parseInt` of theirs. */
  datatype Event =
    | PlayButton
    | PresetButton(preset: string)
    | LevelSlider(color: Color, position: real)
    | VolumeSlider(position: real)
    | TimerButton(minutes: int)
    | KeyDown(targetTag: string, code: string)
    | LowCutSlider(hz: int)
    | HighCutSlider(hz: int)
    | OscillationSlider(percent: int)
    | RateSlider(hundredthsHz: int)
    | FadeSlider(seconds: int)
    | TimerFires

  /** What the listeners do with an event. */
  function Dispatch(s: G.NoiseGenerator, e: Event): (r: G.NoiseGenerator)
    ensures e.PresetButton? ==> r.playing
    ensures e.PresetButton? && e.preset !in G.Presets ==> r.sliders == s.sliders
    ensures e.PresetButton? || e.TimerButton? ==> r.settings == s.settings
    ensures e.PresetButton? ==> r.timer == s.timer
    ensures e.TimerButton? ==> r.sliders == s.sliders
    ensures e.LevelSlider? && !s.playing ==> r.graph == s.graph && r.playing == s.playing
    ensures e.LevelSlider? ==> r.sliders.Level(e.color) == e.position
    ensures e.LevelSlider? ==> r.(graph := s.graph) == s.(sliders := s.sliders.With(e.color, e.position))
    ensures e.LevelSlider? && s.playing && s.Initialized() ==>
      && r.Initialized()
      && r.graph.value.Gain(e.color) == Ramp(e.position / 100.0)
      && SameControls(r.graph.value, s.graph.value)
      && forall k :: k != e.color ==> r.graph.value.Gain(k) == s.graph.value.Gain(k)
    ensures e.TimerButton? && e.minutes == 0 ==> r.(timer := s.timer) == s && r.timer == G.ClearedTimer
    ensures e.TimerButton? && e.minutes != 0 ==>
      r.playing && r.timer.running && r.timer.remaining == e.minutes * 60
    ensures e.KeyDown? && (e.targetTag == "INPUT" || e.code != "Space") ==> r == s
    ensures e.KeyDown? && e.targetTag != "INPUT" && e.code == "Space" ==> r == G.Toggle(s)
    ensures e.PlayButton? ==> r == G.Toggle(s)
    ensures e.PresetButton? && s.playing ==> r == G.ApplyPreset(s, e.preset)
    ensures e.TimerButton? && e.minutes != 0 ==> r.timer == G.StartTimer(s, e.minutes).timer
    ensures e.TimerButton? && e.minutes != 0 && s.playing ==> r.graph == s.graph
    ensures e.VolumeSlider? ==> r == G.SetMasterVolume(s, e.position / 100.0)
    ensures e.LowCutSlider? ==> r == G.SetLowCut(s, e.hz as real)
    ensures e.HighCutSlider? ==> r == G.SetHighCut(s, e.hz as real)
    ensures e.OscillationSlider? ==> r == G.SetOscillationDepth(s, e.percent as real / 100.0)
    ensures e.RateSlider? ==> r == G.SetOscillationRate(s, e.hundredthsHz as real / 100.0)
    ensures e.FadeSlider? ==> r == G.SetFadeTime(s, e.seconds as real)
    ensures e.TimerFires? ==> r == G.Tick(s)
  {
    match e
    case PlayButton => G.Toggle(s)
    case PresetButton(preset) =>
      var t := G.ApplyPreset(s, preset);
      if !t.playing then G.Play(t) else t
    case LevelSlider(color, position) =>
      NameIsColor(color);
      var t := s.(sliders := s.sliders.With(color, position));
      if t.playing then G.SetNoiseLevel(t, Name(color), position / 100.0) else t
    case VolumeSlider(position) => G.SetMasterVolume(s, position / 100.0)
    case TimerButton(minutes) =>
      if minutes == 0 then G.StopTimer(s)
      else
        var t := G.StartTimer(s, minutes);
        if !t.playing then G.Play(t) else t
    case KeyDown(targetTag, code) =>
      if targetTag == "INPUT" then s
      else if code == "Space" then G.Toggle(s)
      else s
    case LowCutSlider(hz) => G.SetLowCut(s, hz as real)
    case HighCutSlider(hz) => G.SetHighCut(s, hz as real)
    case OscillationSlider(percent) => G.SetOscillationDepth(s, percent as real / 100.0)
    case RateSlider(hundredthsHz) => G.SetOscillationRate(s, hundredthsHz as real / 100.0)
    case FadeSlider(seconds) => G.SetFadeTime(s, seconds as real)
    case TimerFires => G.Tick(s)
  }

  /** A preset button with a built-in name leaves the generator playing the
      preset's levels, whether it was playing before or not. */
  lemma PresetButtonPlaysPreset(s: G.NoiseGenerator, preset: string)
    requires G.Inv(s) && preset in G.Presets
    ensures var r := Dispatch(s, PresetButton(preset));
      && r.playing && r.Initialized()
      && forall c: Color :: r.graph.value.Gain(c) == Ramp(G.Presets[preset].Level(c))
  {
    var t := G.ApplyPreset(s, preset);
    if !t.playing {
      forall c: Color
        ensures t.sliders.Level(c) / 100.0 == G.Presets[preset].Level(c)
      {
      }
    }
  }

  /** The events handled one after another, first event first. */
  function Replay(s: G.NoiseGenerator, events: seq<Event>): G.NoiseGenerator
    decreases |events|
  {
    if events == [] then s else Replay(Dispatch(s, events[0]), events[1..])
  }

  /** The slider ranges: levels, volume and depth in percent. */
  predicate InRange(e: Event) {
    match e
    case LevelSlider(_, position) => 0.0 <= position <= 100.0
    case VolumeSlider(position) => 0.0 <= position <= 100.0
    case OscillationSlider(percent) => 0 <= percent <= 100
    case _ => true
  }

  /** While playing each colour sounds at its slider's level. */
  predicate Audible(g: Graph, sliders: Mix) {
    forall c: Color :: g.Gain(c) == Ramp(sliders.Level(c) / 100.0)
  }

  /** What the page keeps on top of the controller invariant: once the graph
      exists, a playing generator sounds exactly as the sliders say and a
      stopped one is silent; the sliders stay within their range and so every
      gain stays within [0, 1] and the tremolo within half of that. */
  predicate Coherent(s: G.NoiseGenerator) {
    && G.Inv(s)
    && s.sliders.Within(0.0, 100.0)
    && (s.Initialized() ==>
          var g := s.graph.value;
          && (s.playing ==> Audible(g, s.sliders))
          && (!s.playing ==> Silent(g))
          && 0.0 <= g.master.target <= 1.0
          && 0.0 <= g.lfoGain.target <= 0.5)
  }

  /** Every colour is found again under its own name. */
  lemma NameIsColor(c: Color)
    ensures ColorNamed(Name(c)) == Some(c)
  {
  }

  /** Within a coherent state, every colour gain lies in [0, 1]. */
  lemma CoherentGainsInRange(s: G.NoiseGenerator, c: Color)
    requires Coherent(s) && s.Initialized()
    ensures 0.0 <= s.graph.value.Gain(c).target <= 1.0
  {
    if s.playing {
      assert s.graph.value.Gain(c) == Ramp(s.sliders.Level(c) / 100.0);
    }
  }

  /** Playing from an invariant state with sliders in range, and with master
      and tremolo in range once the graph exists, gives a coherent state. */
  lemma PlayMakesCoherent(s: G.NoiseGenerator)
    requires G.Inv(s) && s.sliders.Within(0.0, 100.0)
    requires s.Initialized() ==> 0.0 <= s.graph.value.master.target <= 1.0 && 0.0 <= s.graph.value.lfoGain.target <= 0.5
    ensures Coherent(G.Play(s))
  {
  }

  /** Every event in range keeps the page coherent. */
  lemma DispatchKeepsCoherent(s: G.NoiseGenerator, e: Event)
    requires Coherent(s) && InRange(e)
    ensures Coherent(Dispatch(s, e))
  {
    match e
    case PresetButton(preset) =>
      var t := G.ApplyPreset(s, preset);
      if preset in G.Presets {
        G.PresetsAreMixes(preset);
      }
      if !t.playing {
        PlayMakesCoherent(t);
      }
    case TimerButton(minutes) =>
      if minutes != 0 {
        PlayMakesCoherent(G.StartTimer(s, minutes));
      }
    case PlayButton =>
      if !s.playing {
        PlayMakesCoherent(s);
      }
    case KeyDown(_, _) =>
      if !s.playing {
        PlayMakesCoherent(s);
      }
    case LevelSlider(color, position) =>
      NameIsColor(color);
    case VolumeSlider(_) =>
    case LowCutSlider(_) =>
    case HighCutSlider(_) =>
    case OscillationSlider(_) =>
    case RateSlider(_) =>
    case FadeSlider(_) =>
    case TimerFires =>
  }

  /** A run of in-range events from a coherent state ends in a coherent state. */
  lemma {:induction false} ReplayKeepsCoherent(s: G.NoiseGenerator, events: seq<Event>)
    requires Coherent(s)
    requires forall i :: 0 <= i < |events| ==> InRange(events[i])
    ensures Coherent(Replay(s, events))
    decreases |events|
  {
    if events != [] {
      DispatchKeepsCoherent(s, events[0]);
      ReplayKeepsCoherent(Dispatch(s, events[0]), events[1..]);
    }
  }

  /** On a coherent page whose graph exists, pressing play twice gives back
      exactly the state it started from. Before the first play it does not:
      the first press builds the graph. */
  lemma ToggleTwiceRestores(s: G.NoiseGenerator)
    requires Coherent(s) && s.Initialized()
    ensures G.Toggle(G.Toggle(s)) == s
  {
    var t := G.Toggle(s);
    var r := G.Toggle(t);
    if s.playing {
      assert t == G.Stop(s) && r == G.Play(t);
      GraphEquality(r.graph.value, s.graph.value);
    } else {
      assert t == G.Play(s) && r == G.Stop(t);
      GraphEquality(r.graph.value, s.graph.value);
    }
  }

  /** A freshly constructed controller whose sliders are in range is coherent. */
  lemma FreshCoherent(sliders: Mix)
    requires sliders.Within(0.0, 100.0)
    ensures Coherent(G.Fresh(sliders))
  {
  }

  /** Every state the page reaches from a freshly constructed controller, with
      its sliders and every event in range, is coherent. */
  lemma ReachableCoherent(sliders: Mix, events: seq<Event>)
    requires sliders.Within(0.0, 100.0)
    requires forall i :: 0 <= i < |events| ==> InRange(events[i])
    ensures Coherent(Replay(G.Fresh(sliders), events))
  {
    FreshCoherent(sliders);
    ReplayKeepsCoherent(G.Fresh(sliders), events);
  }
}

=== FILE: generator.dfy ===
/** The control state of the noise player (`NoiseGenerator`) and its operations,
    as pure functions from one controller value to the next. The audio graph
    is absent until the first `InitAudioContext`; every parameter setter is a
    no-op on the graph while it is absent. */
module Generator {
  import opened Audio
  import TimerDisplay

  /** What the timer badge last had written to it: nothing yet (the page's own
      initial text is no part of this model), a count of seconds in `MM:SS`
      form, or the dashes of a cleared timer. */
  datatype Badge = Untouched | Counting(seconds: int) | Dashes {
    /** The `#timerValue` text. Below 100 minutes a count reads as `MM:SS`,
        whose two halves give back the seconds; the dashes cannot be read as a
        count, because they start with no digit. */
    function Text(): (t: Option<string>)
      ensures Untouched? <==> t.None?
      ensures Counting? && 0 <= seconds < 6000 ==>
        && t.Some? && |t.value| == 5 && t.value[2] == ':'
        && TimerDisplay.IsDigits(t.value[..2]) && TimerDisplay.IsDigits(t.value[3..])
        && TimerDisplay.ParseDigits(t.value[3..]) < 60
        && TimerDisplay.ParseDigits(t.value[..2]) * 60 + TimerDisplay.ParseDigits(t.value[3..]) == seconds
      ensures Dashes? ==> t.Some? && |t.value| == 5 && !TimerDisplay.IsDigit(t.value[0])
    {
      match this
      case Untouched => None
      case Counting(n) =>
        if 0 <= n < 6000 then
          TimerDisplay.FormatShape(n);
          Some(TimerDisplay.Format(n))
        else
          Some(TimerDisplay.Format(n))
      case Dashes => Some(TimerDisplay.Cleared)
    }
  }

  /** The countdown: whether an interval is registered, the seconds left, and
      the badge. */
  datatype Timer = Timer(running: bool, remaining: int, shown: Badge)

  /** The controller. `sliders` are the positions of the three level sliders
      in percent: `Play` reads them and `ApplyPreset` moves them. */
  datatype NoiseGenerator = NoiseGenerator(
    graph: Option<Graph>,
    playing: bool,
    settings: Settings,
    sliders: Mix,
    timer: Timer)
  {
    /** The audio context (and with it the whole graph) has been created. */
    predicate Initialized() {
      graph.Some?
    }
  }

  /** The cleared timer: no interval, nothing left, `--:--` on the badge. */
  const ClearedTimer: Timer := Timer(false, 0, Dashes)

  /** The controller as constructed, with the sliders where the page puts them. */
  function Fresh(sliders: Mix): (s: NoiseGenerator)
    ensures !s.Initialized() && !s.playing
    ensures s.settings == DefaultSettings && s.sliders == sliders
    ensures !s.timer.running && s.timer.remaining == 0
  {
    NoiseGenerator(None, false, DefaultSettings, sliders, Timer(false, 0, Untouched))
  }

  /** The filter cutoffs and the oscillator rate are the ones the settings record. */
  predicate FiltersFollow(g: Graph, settings: Settings) {
    && g.lowCut.target == settings.lowCut
    && g.highCut.target == settings.highCut
    && g.lfoFrequency.target == settings.oscillationRate
  }

  /** Lazy creation of the audio graph. A second call finds the context and
      returns at once; the first seeds the parameters from the settings. */
  function InitAudioContext(s: NoiseGenerator): (r: NoiseGenerator)
    ensures r.Initialized()
    ensures s.Initialized() ==> r == s
    ensures r.(graph := s.graph) == s
    ensures !s.Initialized() ==>
      && FiltersFollow(r.graph.value, s.settings)
      && r.graph.value.master == Assign(0.5)
      && r.graph.value.lfoGain == Assign(0.0)
      && forall c: Color :: r.graph.value.Gain(c) == Assign(0.0)
  {
    if s.Initialized() then s else s.(graph := Some(Seed(s.settings)))
  }

  /** `setNoiseLevel(type, value)`: ramps the named colour's gain, provided the
      name is a colour and the graph exists. */
  function SetNoiseLevel(s: NoiseGenerator, name: string, value: real): (r: NoiseGenerator)
    ensures !s.Initialized() || ColorNamed(name).None? ==> r == s
    ensures r.(graph := s.graph) == s
    ensures r.Initialized() == s.Initialized()
    ensures s.Initialized() && ColorNamed(name).Some? ==>
      var c := ColorNamed(name).value;
      && r.graph.value.Gain(c) == Ramp(value)
      && (forall k :: k != c ==> r.graph.value.Gain(k) == s.graph.value.Gain(k))
      && SameControls(r.graph.value, s.graph.value)
  {
    match (s.graph, ColorNamed(name))
    case (Some(g), Some(c)) => s.(graph := Some(g.WithGain(c, Ramp(value))))
    case _ => s
  }

  /** `setMasterVolume(value)`: ramps the master gain once the graph exists. */
  function SetMasterVolume(s: NoiseGenerator, value: real): (r: NoiseGenerator)
    ensures !s.Initialized() ==> r == s
    ensures r.(graph := s.graph) == s
    ensures s.Initialized() ==>
      && r.Initialized()
      && r.graph.value.master == Ramp(value)
      && (forall c: Color :: r.graph.value.Gain(c) == s.graph.value.Gain(c))
      && r.graph.value.(master := s.graph.value.master) == s.graph.value
  {
    match s.graph
    case Some(g) => s.(graph := Some(g.(master := Ramp(value))))
    case None => s
  }

  /** `setLowCut(frequency)`: records the cutoff, and ramps the high-pass
      filter's frequency once the graph exists. */
  function SetLowCut(s: NoiseGenerator, frequency: real): (r: NoiseGenerator)
    ensures r.settings == s.settings.(lowCut := frequency)
    ensures r.(graph := s.graph, settings := s.settings) == s
    ensures !s.Initialized() ==> r.graph == s.graph
    ensures s.Initialized() ==>
      && r.Initialized()
      && r.graph.value.lowCut == Ramp(frequency)
      && (forall c: Color :: r.graph.value.Gain(c) == s.graph.value.Gain(c))
      && r.graph.value.(lowCut := s.graph.value.lowCut) == s.graph.value
  {
    var t := s.(settings := s.settings.(lowCut := frequency));
    match s.graph
    case Some(g) => t.(graph := Some(g.(lowCut := Ramp(frequency))))
    case None => t
  }

  /** `setHighCut(frequency)`: records the cutoff, and ramps the low-pass
      filter's frequency once the graph exists. */
  function SetHighCut(s: NoiseGenerator, frequency: real): (r: NoiseGenerator)
    ensures r.settings == s.settings.(highCut := frequency)
    ensures r.(graph := s.graph, settings := s.settings) == s
    ensures !s.Initialized() ==> r.graph == s.graph
    ensures s.Initialized() ==>
      && r.Initialized()
      && r.graph.value.highCut == Ramp(frequency)
      && (forall c: Color :: r.graph.value.Gain(c) == s.graph.value.Gain(c))
      && r.graph.value.(highCut := s.graph.value.highCut) == s.graph.value
  {
    var t := s.(settings := s.settings.(highCut := frequency));
    match s.graph
    case Some(g) => t.(graph := Some(g.(highCut := Ramp(frequency))))
    case None => t
  }

  /** `setOscillationDepth(depth)`: records the depth, and ramps the tremolo
      gain to half of it (at most 50% modulation) once the graph exists. */
  function SetOscillationDepth(s: NoiseGenerator, depth: real): (r: NoiseGenerator)
    ensures r.settings == s.settings.(oscillation := depth)
    ensures r.(graph := s.graph, settings := s.settings) == s
    ensures !s.Initialized() ==> r.graph == s.graph
    ensures s.Initialized() ==>
      && r.Initialized()
      && r.graph.value.lfoGain.timeConstant == Smoothing
      && (forall c: Color :: r.graph.value.Gain(c) == s.graph.value.Gain(c))
      && r.graph.value.lfoGain.target * 2.0 == depth
      && (0.0 <= depth <= 1.0 ==> 0.0 <= r.graph.value.lfoGain.target <= 0.5)
      && r.graph.value.(lfoGain := s.graph.value.lfoGain) == s.graph.value
  {
    var t := s.(settings := s.settings.(oscillation := depth));
    match s.graph
    case Some(g) => t.(graph := Some(g.(lfoGain := Ramp(depth * 0.5))))
    case None => t
  }

  /** `setOscillationRate(rate)`: records the rate, and ramps the oscillator's
      frequency once the graph exists. */
  function SetOscillationRate(s: NoiseGenerator, rate: real): (r: NoiseGenerator)
    ensures r.settings == s.settings.(oscillationRate := rate)
    ensures r.(graph := s.graph, settings := s.settings) == s
    ensures !s.Initialized() ==> r.graph == s.graph
    ensures s.Initialized() ==>
      && r.Initialized()
      && r.graph.value.lfoFrequency == Ramp(rate)
      && (forall c: Color :: r.graph.value.Gain(c) == s.graph.value.Gain(c))
      && r.graph.value.(lfoFrequency := s.graph.value.lfoFrequency) == s.graph.value
  {
    var t := s.(settings := s.settings.(oscillationRate := rate));
    match s.graph
    case Some(g) => t.(graph := Some(g.(lfoFrequency := Ramp(rate))))
    case None => t
  }

  /** `setFadeTime(seconds)`: only recorded; nothing reads it. */
  function SetFadeTime(s: NoiseGenerator, seconds: real): (r: NoiseGenerator)
    ensures r.settings.fadeTime == seconds
    ensures r.settings.(fadeTime := s.settings.fadeTime) == s.settings
    ensures r.(settings := s.settings) == s
  {
    s.(settings := s.settings.(fadeTime := seconds))
  }

  /** The built-in presets: white, pink and brown levels per name. */
  const Presets: map<string, Mix> := map[
    "sleep" := Mix(0.0, 0.3, 0.7),
    "focus" := Mix(0.2, 0.6, 0.2),
    "relax" := Mix(0.0, 0.5, 0.5),
    "white" := Mix(1.0, 0.0, 0.0),
    "pink" := Mix(0.0, 1.0, 0.0),
    "brown" := Mix(0.0, 0.0, 1.0)
  ]

  /** Every built-in preset has its levels in [0, 1], and they add up to one. */
  lemma PresetsAreMixes(name: string)
    requires name in Presets
    ensures Presets[name].Within(0.0, 1.0)
    ensures Presets[name].white + Presets[name].pink + Presets[name].brown == 1.0
  {
  }

  /** `applyPreset(name)`: a known name moves the sliders to the preset (in
      percent) and sends the levels to the colour gains when the graph exists;
      an unknown name does nothing. The play state never changes. */
  function ApplyPreset(s: NoiseGenerator, name: string): (r: NoiseGenerator)
    ensures name !in Presets ==> r == s
    ensures r.playing == s.playing && r.settings == s.settings && r.timer == s.timer
    ensures r.Initialized() == s.Initialized()
    ensures name in Presets ==>
      && (forall c: Color :: r.sliders.Level(c) == Presets[name].Level(c) * 100.0)
      && (s.Initialized() ==>
            && (forall c: Color :: r.graph.value.Gain(c) == Ramp(Presets[name].Level(c)))
            && SameControls(r.graph.value, s.graph.value))
  {
    if name in Presets then
      var p := Presets[name];
      var t := s.(sliders := Mix(p.white * 100.0, p.pink * 100.0, p.brown * 100.0));
      SetNoiseLevel(SetNoiseLevel(SetNoiseLevel(t, "white", p.white), "pink", p.pink), "brown", p.brown)
    else
      s
  }

  /** `play()`: creates the graph if needed, marks the generator playing and
      ramps each colour to its slider's level. */
  function Play(s: NoiseGenerator): (r: NoiseGenerator)
    ensures r.playing && r.Initialized()
    ensures forall c: Color :: r.graph.value.Gain(c) == Ramp(s.sliders.Level(c) / 100.0)
    ensures SameControls(r.graph.value, InitAudioContext(s).graph.value)
    ensures r.settings == s.settings && r.sliders == s.sliders && r.timer == s.timer
  {
    var t := InitAudioContext(s).(playing := true);
    var white := SetNoiseLevel(t, "white", t.sliders.white / 100.0);
    var pink := SetNoiseLevel(white, "pink", t.sliders.pink / 100.0);
    SetNoiseLevel(pink, "brown", t.sliders.brown / 100.0)
  }

  /** `stop()`: without a graph, nothing; otherwise every colour fades to zero
      and the generator is no longer playing. */
  function Stop(s: NoiseGenerator): (r: NoiseGenerator)
    ensures !s.Initialized() ==> r == s
    ensures s.Initialized() ==>
      && !r.playing && r.Initialized()
      && Silent(r.graph.value)
      && SameControls(r.graph.value, s.graph.value)
      && r.settings == s.settings && r.sliders == s.sliders && r.timer == s.timer
  {
    if !s.Initialized() then s
    else
      var white := SetNoiseLevel(s, "white", 0.0);
      var pink := SetNoiseLevel(white, "pink", 0.0);
      SetNoiseLevel(pink, "brown", 0.0).(playing := false)
  }

  /** `toggle()`: stop when playing, play otherwise. */
  function Toggle(s: NoiseGenerator): (r: NoiseGenerator)
    ensures s.playing && s.Initialized() ==> !r.playing
    ensures !s.playing ==> r.playing && r.Initialized()
    ensures s.playing && !s.Initialized() ==> r == s
  {
    if s.playing then Stop(s) else Play(s)
  }

  /** `stopTimer()`: drops the interval, zeroes the count and shows `--:--`. */
  function StopTimer(s: NoiseGenerator): (r: NoiseGenerator)
    ensures !r.timer.running && r.timer.remaining == 0
    ensures r.timer.shown == Dashes && r.timer.shown.Text() == Some(TimerDisplay.Cleared)
    ensures r.(timer := s.timer) == s
  {
    s.(timer := ClearedTimer)
  }

  /** `startTimer(minutes)`: replaces any running countdown by one of
      `minutes * 60` seconds and shows it. */
  function StartTimer(s: NoiseGenerator, minutes: int): (r: NoiseGenerator)
    ensures r.timer.running && r.timer.remaining == minutes * 60
    ensures r.timer.shown == Counting(r.timer.remaining)
    ensures r.(timer := s.timer) == s
  {
    var cleared := StopTimer(s);
    var left := minutes * 60;
    cleared.(timer := Timer(true, left, Counting(left)))
  }

  /** One firing of the countdown interval. Without an interval nothing
      happens. Otherwise one second is taken off and shown; when nothing is
      left the timer is cleared and the generator stopped. */
  function Tick(s: NoiseGenerator): (r: NoiseGenerator)
    ensures !s.timer.running ==> r == s
    ensures s.timer.running && s.timer.remaining > 1 ==>
      && r.timer.running
      && r.timer.remaining == s.timer.remaining - 1
      && r.timer.shown == Counting(r.timer.remaining)
      && r.(timer := s.timer) == s
    ensures s.timer.running && s.timer.remaining <= 1 ==>
      && r == Stop(StopTimer(s))
      && r.timer == ClearedTimer
      && r.playing == (s.playing && !s.Initialized())
  {
    if !s.timer.running then s
    else
      var left := s.timer.remaining - 1;
      var t := s.(timer := s.timer.(remaining := left, shown := Counting(left)));
      if left <= 0 then Stop(StopTimer(t)) else t
  }

  /** What every sequence of calls keeps: only an existing graph can play, a
      stopped timer has nothing left, and the filters and oscillator rate of an
      existing graph are the ones the settings record. */
  predicate Inv(s: NoiseGenerator) {
    && (s.playing ==> s.Initialized())
    && (!s.timer.running ==> s.timer.remaining == 0)
    && (s.Initialized() ==> FiltersFollow(s.graph.value, s.settings))
  }

  /** Creating the graph twice is creating it once. */
  lemma InitIdempotent(s: NoiseGenerator)
    ensures InitAudioContext(InitAudioContext(s)) == InitAudioContext(s)
  {
  }

  /** Cutoffs chosen before the first play become the filters' frequencies. */
  lemma CutsBeforeFirstPlay(s: NoiseGenerator, low: real, high: real)
    requires !s.Initialized()
    ensures var r := Play(SetHighCut(SetLowCut(s, low), high));
      r.graph.value.lowCut.target == low && r.graph.value.highCut.target == high
  {
  }

  /** A depth chosen before the first play is recorded but not applied: the
      graph is built with no tremolo, while a rate chosen before the first play
      is applied. */
  lemma DepthBeforeFirstPlayIsNotApplied(s: NoiseGenerator, depth: real, rate: real)
    requires !s.Initialized()
    ensures var r := Play(SetOscillationRate(SetOscillationDepth(s, depth), rate));
      && r.settings.oscillation == depth
      && r.graph.value.lfoGain.target == 0.0
      && r.graph.value.lfoFrequency.target == rate
  {
  }

  /** A master volume set before the first play is dropped: without a graph
      the setter does nothing, and play builds the graph with master 0.5. */
  lemma VolumeBeforeFirstPlayIsDropped(s: NoiseGenerator, volume: real)
    requires !s.Initialized()
    ensures SetMasterVolume(s, volume) == s
    ensures Play(SetMasterVolume(s, volume)).graph.value.master == Assign(0.5)
  {
  }

  /** Toggling twice restores whether the generator plays, from any state. */
  lemma ToggleTwicePlaying(s: NoiseGenerator)
    ensures Toggle(Toggle(s)).playing == s.playing
  {
  }

  /** Under the invariant, `toggle` always flips the play state. */
  lemma ToggleFlips(s: NoiseGenerator)
    requires Inv(s)
    ensures Toggle(s).playing == !s.playing
  {
  }

  /** `n` firings of the countdown interval. */
  function Ticks(s: NoiseGenerator, n: nat): NoiseGenerator
    decreases n
  {
    if n == 0 then s else Ticks(Tick(s), n - 1)
  }

  /** While more seconds are left than ticks fire, each tick only counts down. */
  lemma {:induction false} CountingDown(s: NoiseGenerator, n: nat)
    requires s.timer.running && n < s.timer.remaining
    ensures Ticks(s, n).timer.running
    ensures Ticks(s, n).timer.remaining == s.timer.remaining - n
    ensures Ticks(s, n).graph == s.graph && Ticks(s, n).playing == s.playing
    ensures Ticks(s, n).settings == s.settings && Ticks(s, n).sliders == s.sliders
    ensures n > 0 ==> Ticks(s, n).timer.shown == Counting(s.timer.remaining - n)
    decreases n
  {
    if n > 0 {
      var t := s.(timer := Timer(true, s.timer.remaining - 1, Counting(s.timer.remaining - 1)));
      TickCountsDown(s);
      assert Ticks(s, n) == Ticks(t, n - 1);
      if n > 1 {
        CountingDown(t, n - 1);
      }
    }
  }

  /** A timer of `minutes` minutes keeps the generator as it is for
      `60 * minutes - 1` seconds and stops it on the last one. */
  lemma {:induction false} TimerRunsOut(s: NoiseGenerator, minutes: int)
    requires minutes > 0
    ensures var t := StartTimer(s, minutes);
      && Ticks(t, 60 * minutes - 1).(timer := t.timer) == t
      && Ticks(t, 60 * minutes - 1).timer.remaining == 1
      && Ticks(t, 60 * minutes) == Stop(StopTimer(t))
  {
    var t := StartTimer(s, minutes);
    var n := 60 * minutes - 1;
    CountingDown(t, n);
    TicksSplit(t, n);
  }

  /** With more than one second left, a tick only counts down. */
  lemma TickCountsDown(s: NoiseGenerator)
    requires s.timer.running && s.timer.remaining > 1
    ensures Tick(s) == s.(timer := Timer(true, s.timer.remaining - 1, Counting(s.timer.remaining - 1)))
  {
  }

  /** `n + 1` ticks are `n` ticks and one more. */
  lemma {:induction false} TicksSplit(s: NoiseGenerator, n: nat)
    ensures Ticks(s, n + 1) == Tick(Ticks(s, n))
    decreases n
  {
    if n > 0 {
      TicksSplit(Tick(s), n - 1);
    }
  }
}
